=== FILE: README.md ===
# Raga gesture harmony: the performance core in Dafny

A model of the state machines and lookups behind a web page that turns hand
gestures into notes of a raga, with a tanpura drone and a tala beat counter.
Four pieces are modelled as immutable records and pure step functions. Time
and timer events are explicit inputs.

- `HandMapping` (`hand_mapping.dfy`): the assignment of four fingers per hand
  to swaras. There are three layouts (left-to-right, right-to-left, cyclic).
  A direction change replaces the whole configuration. The finger lookup is
  total.
- `AudioEngine` (`audio_engine.dfy`): the control logic of the audio hook.
  It covers the one-shot initialisation, the 300 ms per-swara cooldown that
  gates `playSwara`, the guarded tanpura start and stop, and the stored
  tanpura volume. Each call into the synthesiser is an emitted `Event`
  (`AttackRelease`, `Attack`, `ReleaseAll`, `SetVolume`).
- `Performance` (`performance.dfy`) and `PerformanceProperties`
  (`performance_properties.dfy`): the page controller. This is the tala
  counter `(prev + 1) % beats` driven by an interval, the restart of that
  interval when the tala changes, and the gesture handler with its raga
  filter and its 800 ms display-clear timeout. It also has the tanpura
  toggle and the begin-experience handler.
  - Timers carry handles taken from one counter. An interval records the beat
    count it was created with. A timeout records its deadline.
  - A `TalaTick(h)` input fires interval `h`. A `Clock(now)` input fires
    every timeout whose deadline has passed.
  - The invariant `Performance.Valid` says that at most one interval and one
    timeout are live. It also says an interval is live exactly while the
    experience is active, and the live interval counts the current tala's
    beats.
- `SwaraDisplay` (`swara_display.dfy`): the highlight predicates of the swara
  row. `isSwaraPresent` filters by prefix and then tests membership.
  `isSwaraActive` compares after stripping digits.
- `MusicData` (`music_data.dfy`): the music catalog is not part of this
  model. The swara ratio keys, the base and variant lists, the raga and
  tala tables and `getRagaSpecificSwara` are a `Catalog` parameter. The
  resolver is an uninterpreted function.
- `Optional` (`optional.dfy`): an option type used for `undefined` values
  and empty refs.

### Behaviour of the code worth knowing

- The page hands `handleHandGesture` only to `HandTrackingCanvas`
  (src/pages/Index.tsx:196-199). That component starts the webcam and never
  calls the callback (src/components/HandTrackingCanvas.tsx:9-79), so as
  wired no gesture reaches the page. The gesture handler itself has no
  per-finger cooldown; the only cooldown on the gesture path is the engine's
  300 ms ledger, keyed by the resolved swara alone.
- The tanpura volume slider never reaches the engine; see "## Findings".
- A tala change restarts the interval but keeps the counter. After a switch
  to a shorter tala, the counter can be at or above the new beat count until
  the next tick (`PerformanceProperties.TalaChangeRestartsInterval`).
- `initializeAudio` catches its own error, so `handleBeginExperience` always
  activates the experience and starts the counter, even when audio did not
  start (`PerformanceProperties.BeginAlwaysActivates`). The error branch of
  `handleBeginExperience` is never taken.
- The cooldown check tests the stored time for truthiness, so a stored time
  of 0 counts as "no cooldown" (`AudioEngine.ZeroStampIsNoCooldown`,
  `AudioEngine.ZeroTimestampBreaksSpacing`).

## Model

| member | source | states |
|---|---|---|
| `HandMapping.InitialConfig` | src/hooks/useHandMappingConfig.ts:14-18 | the initial configuration is a layout: 4 fingers per hand, the seven base swaras and one empty slot, each once |
| `HandMapping.InitialIsLeftToRight` | src/hooks/useHandMappingConfig.ts:14-28 | the initial configuration is exactly what selecting left-to-right produces, from any configuration |
| `HandMapping.UpdateDirection` | src/hooks/useHandMappingConfig.ts:20-47 | after a direction change the stored direction is the new one and both hands hold a full layout |
| `HandMapping.UpdateForgetsPrevious` | src/hooks/useHandMappingConfig.ts:20-46 | the configuration after a direction change does not depend on the configuration it replaces |
| `HandMapping.UpdateIdempotent` | src/hooks/useHandMappingConfig.ts:20-47 | selecting the same direction twice equals selecting it once |
| `HandMapping.EachSwaraOnce` | src/hooks/useHandMappingConfig.ts:24-40 | in every layout the eight finger lookups are pairwise distinct and cover Sa, Ri, Ga, Ma, Pa, Da, Ni and the empty marker |
| `HandMapping.SwaraForFinger` | src/hooks/useHandMappingConfig.ts:49-52 | a total lookup: a non-empty result is the entry of an in-range finger of that hand; any out-of-range index, negative ones included, gives "" |
| `HandMapping.LookupAfterUpdate` | src/hooks/useHandMappingConfig.ts:49-52 | after a direction change fingers 0..3 read the new layout's fixed table and every other index reads "" |
| `HandMapping.CyclicSwitchExample` | src/hooks/useHandMappingConfig.ts:33-36 | after switching to cyclic, the left pinky is unassigned and the right index finger plays Ma, from any prior configuration |
| `AudioEngine.Initial` | src/hooks/useAudioEngine.ts:13-21 | a fresh engine is not started, has no synthesiser, no drone, an empty cooldown ledger and volume -20 |
| `AudioEngine.Initialize` | src/hooks/useAudioEngine.ts:25-83 | a no-op once started; a failure is swallowed and changes nothing; success starts audio and creates the tanpura synth at the stored volume |
| `AudioEngine.InitializeOnce` | src/hooks/useAudioEngine.ts:25-83 | a second initialisation after a success changes nothing; one after a failure behaves like a first attempt |
| `AudioEngine.PlaySwara` | src/hooks/useAudioEngine.ts:85-99 | a rejected call (no synth, unknown swara, or within cooldown) emits nothing and changes nothing; an accepted one emits one attack-release at the requested octave and stamps only that swara's ledger entry with `now` |
| `AudioEngine.SilentBeforeInit` | src/hooks/useAudioEngine.ts:85-102 | before initialisation neither a note nor the drone is emitted and nothing is recorded |
| `AudioEngine.CooldownBoundary` | src/hooks/useAudioEngine.ts:88-93 | with a non-zero stamp `t`, a note before `t + 300` is suppressed and one at or after `t + 300` sounds |
| `AudioEngine.ZeroStampIsNoCooldown` | src/hooks/useAudioEngine.ts:89-93 | a stored time of 0 never suppresses a note |
| `AudioEngine.CooldownPerSwara` | src/hooks/useAudioEngine.ts:89-98 | playing swara A never changes whether a different swara B is accepted |
| `AudioEngine.PlayAll` | src/hooks/useAudioEngine.ts:85-99 | running a sequence of calls keeps the engine invariant; the sounded calls are a subset of the calls made |
| `AudioEngine.PlayAllSpaced` | src/hooks/useAudioEngine.ts:85-99 | for positive timestamps, any two sounded notes of the same swara in a run are at least 300 ms apart |
| `AudioEngine.ZeroTimestampBreaksSpacing` | src/hooks/useAudioEngine.ts:89-93 | with a timestamp of 0 the same swara sounds at 0 and again at 100 ms |
| `AudioEngine.StartTanpura` | src/hooks/useAudioEngine.ts:101-111 | emits only when a synth exists and the drone is silent: Sa then Pa 100 ms later, both held in octave 3; afterwards the drone plays iff a synth exists |
| `AudioEngine.StartTanpuraIdempotent` | src/hooks/useAudioEngine.ts:101-111 | a second start emits nothing and changes nothing, so there are no doubled voices |
| `AudioEngine.StopTanpura` | src/hooks/useAudioEngine.ts:113-118 | emits exactly one release-all iff the drone was playing; afterwards it is silent |
| `AudioEngine.StopTanpuraIdempotent` | src/hooks/useAudioEngine.ts:113-118 | a second stop emits nothing and changes nothing |
| `AudioEngine.StartStopRoundTrip` | src/hooks/useAudioEngine.ts:101-118 | once started, stop undoes start and start undoes stop |
| `AudioEngine.UpdateTanpuraVolume` | src/hooks/useAudioEngine.ts:120-125 | the volume is always recorded; it is applied to the live synth (one `SetVolume`) only when one exists |
| `AudioEngine.VolumeRetainedForInit` | src/hooks/useAudioEngine.ts:120-125 | a volume set before initialisation emits nothing and is the volume the tanpura synth is created with |
| `SwaraDisplay.StripDigits` | src/components/SwaraDisplay.tsx:19 | the result has no digit, is no longer than the input, and is the input itself when the input has no digit |
| `SwaraDisplay.StripDigitsCounts` | src/components/SwaraDisplay.tsx:19 | every non-digit character occurs as often in the result as in the input; no digit occurs |
| `SwaraDisplay.StripDigitsAppend` | src/components/SwaraDisplay.tsx:19 | stripping distributes over concatenation, so kept characters stay in order |
| `SwaraDisplay.StripDigitsIdempotent` | src/components/SwaraDisplay.tsx:19 | stripping twice equals stripping once |
| `SwaraDisplay.RelevantSwaras` | src/components/SwaraDisplay.tsx:14 | the filter keeps exactly the variants that start with the base |
| `SwaraDisplay.SomeIncluded` | src/components/SwaraDisplay.tsx:15 | true iff some candidate is one of the raga's swaras |
| `SwaraDisplay.IsSwaraPresent` | src/components/SwaraDisplay.tsx:13-16 | true iff some variant starting with the base is used by the raga |
| `SwaraDisplay.PresentMonotone` | src/components/SwaraDisplay.tsx:13-16 | adding swaras to the raga never turns a present base absent |
| `SwaraDisplay.EmptyRagaShowsNothing` | src/components/SwaraDisplay.tsx:13-16 | with an empty raga every base is absent |
| `SwaraDisplay.IsSwaraActive` | src/components/SwaraDisplay.tsx:18-20 | an undefined displayed swara is never active; only a digit-free base can be active; for a digit-free display, active iff equal |
| `SwaraDisplay.GaVariantsActive` | src/components/SwaraDisplay.tsx:18-20 | both "Ga3" and "Ga" make the base "Ga" active |
| `SwaraDisplay.SpelledVariantActive` | src/components/SwaraDisplay.tsx:18-20 | appending digits to the displayed swara never changes which base is active, so every digit spelling of a digit-free base ("Ri1", "Ga2", …) activates that base |
| `SwaraDisplay.PlaceholderActiveForNone` | src/components/SwaraDisplay.tsx:18-20 | the placeholder "--" activates no base other than one literally named "--" |
| `SwaraDisplay.Row` | src/components/SwaraDisplay.tsx:24-26 | one tile per base swara, in order; no tile is active while no swara is displayed; with distinct base names no two tiles are active at once |
| `SwaraDisplay.AtMostOneActive` | src/components/SwaraDisplay.tsx:18-26 | with distinct base names at most one tile of the row is active |
| `Performance.Initial` | src/pages/Index.tsx:27-34 | the first render satisfies the page invariant, is inactive, has no live timers and holds the audio hook's fresh engine |
| `Performance.StartTalaCounter` | src/pages/Index.tsx:60-68 | clears the interval under the ref before creating the new one, so exactly one interval is live afterwards, counting the given beats; the counter is untouched |
| `Performance.Begin` | src/pages/Index.tsx:71-93 | whatever the audio outcome, the experience is active and the welcome screen hidden, with one interval counting the current tala; the counter and selections are kept, the engine went through the guarded initialisation, and nothing else changes |
| `Performance.Gesture` | src/pages/Index.tsx:96-111 | a gesture whose resolved swara the raga does not use changes nothing; otherwise the resolved swara is displayed and the only pending clear is due at `now + 800`; the engine and the events are exactly those of the engine's `playSwara` for the resolved swara at the current octave and `now`, so the engine changes only in its cooldown ledger; the selections, counter, interval and welcome state are unchanged |
| `Performance.Toggle` | src/pages/Index.tsx:114-120 | afterwards the drone plays iff it was silent and audio had started; nothing but the engine changes |
| `Performance.ChangeTala` | src/pages/Index.tsx:128-137 | the new tala is selected and, while active, the live interval counts its beats; the counter and the active flag are kept; only the tala, the interval and the handle counter can change |
| `Performance.Tick` | src/pages/Index.tsx:65-67 | a tick of the live interval leaves the counter below the current tala's beat count; a cleared interval's tick changes nothing; only the counter changes |
| `Performance.AdvanceClock` | src/pages/Index.tsx:107-109 | every clear whose deadline has passed has fired and the display shows "--" if any had; clears not yet due are kept with their deadlines; with none due the page is unchanged; nothing else changes |
| `Performance.Step` | src/pages/Index.tsx:185-198 | every input the page accepts keeps the page invariant; a volume input leaves the page unchanged and emits nothing, because the slider calls a callback the page never passes |
| `PerformanceProperties.InitialState` | src/pages/Index.tsx:27-34 | the page starts at octave 4, shows "--", counter 0, raga mayamalavagowla, tala adi, welcome shown, inactive, audio not started |
| `PerformanceProperties.AtMostOneTimer` | src/pages/Index.tsx:60-67 | in every valid state at most one tala interval and at most one display clear are live |
| `PerformanceProperties.BeginAlwaysActivates` | src/pages/Index.tsx:71-93 | whatever the audio outcome, beginning activates the experience, hides the welcome screen, leaves exactly one interval counting the current tala and keeps the counter; audio is started iff it was or the start succeeded |
| `PerformanceProperties.TickInRange` | src/pages/Index.tsx:65-67 | a tick of the live interval sets the counter to `(counter + 1) % beats`, which is below the current tala's beat count |
| `PerformanceProperties.TicksAdvanceCounter` | src/pages/Index.tsx:65-67 | after n >= 1 ticks the counter is `(counter + n) % beats`, nothing else changes and nothing sounds |
| `PerformanceProperties.TicksFromZero` | src/pages/Index.tsx:65-67 | from 0, the counter after n ticks is `n % beats` |
| `PerformanceProperties.WrapsPerCycle` | src/pages/Index.tsx:65-67 | from 0, the counter reads 0 after exactly `n / beats` of the first n ticks |
| `PerformanceProperties.EightBeatsWrapTwice` | src/pages/Index.tsx:65-67 | an eight-beat tala returns to 0 exactly twice in sixteen ticks |
| `PerformanceProperties.TalaChangeRestartsInterval` | src/pages/Index.tsx:133-137 | a tala change while active replaces the old interval by one for the new beat count and keeps the counter; the next tick wraps modulo the new count |
| `PerformanceProperties.SameTalaNoRestart` | src/pages/Index.tsx:128-137 | re-selecting the current tala changes nothing |
| `PerformanceProperties.GestureOutsideRagaIgnored` | src/pages/Index.tsx:97-99 | a gesture whose resolved swara the raga does not use changes nothing and emits nothing |
| `PerformanceProperties.GestureAccepted` | src/pages/Index.tsx:96-111 | an accepted gesture displays the resolved swara; it emits at most one attack-release, at the current octave, iff the engine accepts; one pending clear due `now + 800` replaces all earlier ones; selections and counter unchanged |
| `PerformanceProperties.GestureDisplaysWithoutAudio` | src/pages/Index.tsx:99-101 | before audio starts, an accepted gesture still updates the display but sounds nothing |
| `PerformanceProperties.DisplayClearsAfterDelay` | src/pages/Index.tsx:103-109 | the shown swara stays before `now + 800` and becomes "--" from then on, with no pending clear left |
| `PerformanceProperties.LaterGesturePostponesClear` | src/pages/Index.tsx:104-109 | a later accepted gesture cancels the earlier clear: at the first deadline the second swara is still shown |
| `PerformanceProperties.RepeatWithinCooldownSilent` | src/pages/Index.tsx:99-109 | repeating a gesture within 300 ms updates display and deadline but the note sounds only once |
| `PerformanceProperties.ToggleFollowsPlaying` | src/pages/Index.tsx:114-120 | the toggle releases a playing drone, starts a silent one once audio has started, emitting Sa at 0 ms and Pa at 100 ms in octave 3, and does nothing before that |
| `PerformanceProperties.RagaChangeOnlySelects` | src/pages/Index.tsx:123-125 | selecting a raga only records it; nothing sounds and nothing else changes |
| `PerformanceProperties.OctaveChangeOnlySets` | src/pages/Index.tsx:187 | selecting an octave only records it; nothing sounds and nothing else changes |
| `PerformanceProperties.VolumeChangeOnlyEngine` | src/pages/Index.tsx:189 | with the handler wired as the page intends, a volume change alters only the engine's volume and live synth, leaving the drone flag, the started flag, the cooldown ledger and the rest of the page unchanged; it records the volume and emits one `SetVolume` exactly when audio has started |
| `Performance.WiredVolumeChange` | src/pages/Index.tsx:189 | the handler the page means to pass: it changes the page only through the audio hook's `updateTanpuraVolume`, whose engine and events it returns |
| `PerformanceProperties.VolumeSliderNeverApplied` | src/components/ControlPanel.tsx:156 | as wired, after a successful begin, moving the slider to -40 leaves the drone volume at -20 and sends nothing, while the wired handler would apply -40 |
| `PerformanceProperties.ToggleTwiceRestores` | src/pages/Index.tsx:114-120 | once audio has started, two toggles restore the page |
| `PerformanceProperties.GestureThenClock` | src/pages/Index.tsx:96-111 | through the page's input loop, an accepted gesture followed by a clock at `later` shows the swara while `later < now + 800` and "--" from then on |
| `PerformanceProperties.TalaChangeWhileActive` | src/pages/Index.tsx:128-137 | while active, a tala input leaves exactly one live interval, under the ref, counting the selected tala's beats; the engine and welcome screen are untouched and nothing sounds |
| `PerformanceProperties.BeginThenToggle` | src/pages/Index.tsx:71-120 | from the first render, begin then toggle leaves the page active and sounds Sa and Pa exactly when audio started |
| `PerformanceProperties.FirstSession` | src/pages/Index.tsx:71-137 | from the first render, begin, toggle and a tala change leave the page active with one interval counting the new tala, the drone playing iff audio started, and the Sa/Pa attacks as the only events when it did |

## Findings

| source | as written | input that shows it | evidently intended | confidence | as-written member | corrected member |
|---|---|---|---|---|---|---|
| src/pages/Index.tsx:189 | the page passes `updateTanpuraVolume` as `onTanpuraVolumeChange`, but the control panel reads and calls `onVolumeChange` (src/components/ControlPanel.tsx:19, 33, 156), which is then undefined; the slider's call fails and the volume is never applied | begin with audio working, then move the slider to -40: the drone stays at -20 and no volume change is sent | the slider calls `updateTanpuraVolume`, so the volume is recorded and applied to a live drone | high (not executed) | `PerformanceProperties.VolumeSliderNeverApplied` (the page's `Performance.Step`) | `Performance.WiredVolumeChange`, with `PerformanceProperties.VolumeChangeOnlyEngine` |

## Left out

- Pinch detection: `HandTrackingCanvas` (src/components/HandTrackingCanvas.tsx:9-79)
  starts the webcam and never calls `onHandGesture`, so there is no gesture
  source to model. The gesture handler is modelled on its own, and its input
  is an arbitrary swara string.
- The link from the hand mapping to gestures: none of the modelled files
  connects them, so the two are modelled separately.
- Synthesis through Tone.js (effect chain, envelopes, `dispose` on unmount):
  a foreign library. Its calls are emitted events.
- Frequency arithmetic `basePitch * ratio * 2^(octave - 4)`: floating point.
  Events carry the (swara, octave) pair instead.
- `Date.now`, `setInterval` and `setTimeout`: replaced by explicit times and
  tick inputs in a sequential model. Stale React closures are not modelled;
  every handler sees the current state.
- The music catalog's contents (ragas, talas, ratios, variant lists,
  `getRagaSpecificSwara`): they are not part of this model and are parameters.
- The `default` branch of `updateDirection`: the direction type has only three
  values, so it is not reachable through the type.
- An initialisation that fails after the synthesisers were created: the
  model treats the audio start as all-or-nothing.
- Finger indices that are not integers, and swara names that are inherited
  JavaScript object properties: the model uses integer indices and a plain
  key set.
- Unmount cleanup of the interval and timeout, the loading flag, toasts,
  language switching and all presentation components.
- Re-entrant clicks on "begin" while audio initialisation is pending.
- The octave choices {3, 4, 5} of the control panel: they are not enforced,
  because `setOctave` accepts any number. The volume range [-60, 0] of the
  slider does not matter to the page, because the slider's value never
  reaches a handler (see "## Findings"); the wired handler accepts any number.
- SwaraDisplay.IsSwaraActive: its own contract pins the result only for a
  displayed swara without digits. Displays that end in digits are pinned by
  `SwaraDisplay.SpelledVariantActive`; a display with digits in the middle
  (such as "G3a") is left to the definition, which strips every digit.
- Performance.Step: its own contract states the page invariant and that a volume input changes nothing, but not what the other inputs do. Those are stated by the contracts of the handler functions it dispatches to; the raga and octave inputs, which have no handler function in the model, are covered by `PerformanceProperties.RagaChangeOnlySelects` and `PerformanceProperties.OctaveChangeOnlySets`; whole input sequences through `Performance.Run` are covered by `PerformanceProperties.GestureThenClock` and `PerformanceProperties.FirstSession`.

=== FILE: audio_engine.dfy ===
/**
 * Control logic of the audio engine: the one-shot initialisation guard, the
 * per-swara cooldown that rate-limits melodic notes, the tanpura (drone)
 * on/off state machine and the stored tanpura volume. The synthesiser is an
 * output sink: each call into it is an emitted `Event`.
 */
module AudioEngine {
  import opened Optional

  /** Minimum spacing, in ms, between two accepted notes of the same swara. */
  const CooldownMs: int := 300

  /** Tanpura volume (dB) before any change. */
  const InitialTanpuraVolume: int := -20

  /** The tanpura sounds Sa and Pa in this octave. */
  const TanpuraOctave: int := 3

  /** Pa's onset follows Sa's by this many ms. */
  const TanpuraStaggerMs: nat := 100

  /** Calls the engine makes into the synthesiser. */
  datatype Event =
    | AttackRelease(swara: string, octave: int)        // a short melodic note
    | Attack(swara: string, octave: int, delayMs: nat)  // a held tanpura voice
    | ReleaseAll                                        // silence the tanpura
    | SetVolume(db: int)                                // tanpura synth volume

  /**
   * Engine state. `tanpuraSynth` is the live tanpura synthesiser, known by its
   * volume; it and the melodic synthesiser exist exactly after a successful
   * initialisation. `cooldowns` maps a swara to the time (ms) of its last
   * accepted note.
   */
  datatype Engine = Engine(
    audioStarted: bool,
    tanpuraPlaying: bool,
    tanpuraVolume: int,
    tanpuraSynth: Option<int>,
    cooldowns: map<string, int>)

  /** An engine after a call, with the calls it made into the synthesiser. */
  datatype Emitted = Emitted(engine: Engine, events: seq<Event>)

  /** The synthesisers have been created. */
  predicate HasSynths(e: Engine) {
    e.tanpuraSynth.Some?
  }

  /**
   * The engine's invariant: the started flag and the synthesisers come
   * together, the live tanpura synth plays at the stored volume, and the
   * tanpura can only be playing once audio has started.
   */
  predicate Valid(e: Engine) {
    && (e.audioStarted <==> HasSynths(e))
    && (HasSynths(e) ==> e.tanpuraSynth.value == e.tanpuraVolume)
    && (e.tanpuraPlaying ==> e.audioStarted)
  }

  /** The engine as a session finds it. */
  function Initial(): (e: Engine)
    ensures Valid(e)
    ensures !e.audioStarted && !e.tanpuraPlaying && e.cooldowns == map[]
    ensures e.tanpuraVolume == -20 && !HasSynths(e)
  {
    Engine(false, false, InitialTanpuraVolume, None, map[])
  }

  /**
   * Start audio. A no-op once started. `ok` says whether the audio context
   * started; a failure is swallowed and leaves the engine as it was. On
   * success the tanpura synth is created at the stored volume.
   */
  function Initialize(e: Engine, ok: bool): (e': Engine)
    requires Valid(e)
    ensures Valid(e')
    ensures e.audioStarted ==> e' == e
    ensures !ok ==> e' == e
    ensures !e.audioStarted && ok ==>
      e'.audioStarted && e'.tanpuraSynth == Some(e.tanpuraVolume)
      && e'.tanpuraPlaying == e.tanpuraPlaying && e'.tanpuraVolume == e.tanpuraVolume && e'.cooldowns == e.cooldowns
  {
    if e.audioStarted || !ok then e
    else e.(audioStarted := true, tanpuraSynth := Some(e.tanpuraVolume))
  }

  /**
   * The swara is inside its cooldown window at `now`. A recorded time of 0
   * is falsy in the source and so counts as no cooldown.
   */
  predicate CoolingDown(cooldowns: map<string, int>, swara: string, now: int) {
    swara in cooldowns && cooldowns[swara] != 0 && now - cooldowns[swara] < CooldownMs
  }

  /** `playSwara` would sound the note: the synth exists, the swara has a ratio, and it is not cooling down. */
  predicate Accepts(e: Engine, swarasthanas: set<string>, swara: string, now: int) {
    HasSynths(e) && swara in swarasthanas && !CoolingDown(e.cooldowns, swara, now)
  }

  /**
   * Play `swara` at `octave` at wall-clock time `now` (ms). An accepted note
   * is one attack-release and stamps the swara's cooldown with `now`; any
   * other call changes nothing and emits nothing.
   */
  function PlaySwara(e: Engine, swarasthanas: set<string>, swara: string, octave: int, now: int): (r: Emitted)
    requires Valid(e)
    ensures Valid(r.engine)
    ensures |r.events| <= 1
    ensures !Accepts(e, swarasthanas, swara, now) ==> r == Emitted(e, [])
    ensures Accepts(e, swarasthanas, swara, now) ==>
      && r.events == [AttackRelease(swara, octave)]
      && swara in r.engine.cooldowns && r.engine.cooldowns[swara] == now
    ensures forall k :: k != swara ==> (k in r.engine.cooldowns <==> k in e.cooldowns)
    ensures forall k :: k != swara && k in e.cooldowns ==> r.engine.cooldowns[k] == e.cooldowns[k]
    ensures r.engine.(cooldowns := e.cooldowns) == e
  {
    if !HasSynths(e) || swara !in swarasthanas then Emitted(e, [])
    else if CoolingDown(e.cooldowns, swara, now) then Emitted(e, [])
    else Emitted(e.(cooldowns := e.cooldowns[swara := now]), [AttackRelease(swara, octave)])
  }

  /**
   * Start the drone: a no-op without a synth or when already playing;
   * otherwise Sa and then, 100 ms later, Pa, both held in octave 3.
   */
  function StartTanpura(e: Engine): (r: Emitted)
    requires Valid(e)
    ensures Valid(r.engine)
    ensures r.engine.tanpuraPlaying == (e.tanpuraPlaying || HasSynths(e))
    ensures r.events != [] <==> HasSynths(e) && !e.tanpuraPlaying
    ensures r.events != [] ==>
      r.events == [Attack("Sa", TanpuraOctave, 0), Attack("Pa", TanpuraOctave, TanpuraStaggerMs)]
    ensures r.engine.(tanpuraPlaying := e.tanpuraPlaying) == e
  {
    if !HasSynths(e) || e.tanpuraPlaying then Emitted(e, [])
    else
      Emitted(e.(tanpuraPlaying := true),
              [Attack("Sa", TanpuraOctave, 0), Attack("Pa", TanpuraOctave, TanpuraStaggerMs)])
  }

  /** Stop the drone: a no-op unless a synth exists and it is playing; otherwise one release of every voice. */
  function StopTanpura(e: Engine): (r: Emitted)
    requires Valid(e)
    ensures Valid(r.engine)
    ensures !r.engine.tanpuraPlaying
    ensures r.events != [] <==> e.tanpuraPlaying
    ensures r.events != [] ==> r.events == [ReleaseAll]
    ensures r.engine.(tanpuraPlaying := e.tanpuraPlaying) == e
  {
    if !HasSynths(e) || !e.tanpuraPlaying then Emitted(e, [])
    else Emitted(e.(tanpuraPlaying := false), [ReleaseAll])
  }

  /**
   * Record a new tanpura volume. It is always kept (also before audio has
   * started, so that the synth is later created with it) and is applied to
   * the live synth only when one exists.
   */
  function UpdateTanpuraVolume(e: Engine, volume: int): (r: Emitted)
    requires Valid(e)
    ensures Valid(r.engine)
    ensures r.engine.tanpuraVolume == volume
    ensures r.events == (if HasSynths(e) then [SetVolume(volume)] else [])
    ensures r.engine.(tanpuraVolume := e.tanpuraVolume, tanpuraSynth := e.tanpuraSynth) == e
  {
    var synth := if HasSynths(e) then Some(volume) else None;
    Emitted(e.(tanpuraVolume := volume, tanpuraSynth := synth),
            if HasSynths(e) then [SetVolume(volume)] else [])
  }

  // ---------------------------------------------------------------------------
  // Properties of single calls

  /** Initialising twice is initialising once, whatever the second attempt's outcome. */
  lemma InitializeOnce(e: Engine, ok1: bool, ok2: bool)
    requires Valid(e)
    ensures ok1 ==> Initialize(Initialize(e, ok1), ok2) == Initialize(e, ok1)
    ensures Initialize(Initialize(e, false), ok2) == Initialize(e, ok2)
  {
  }

  /** Before initialisation nothing sounds and nothing is recorded. */
  lemma SilentBeforeInit(e: Engine, swarasthanas: set<string>, swara: string, octave: int, now: int)
    requires Valid(e) && !e.audioStarted
    ensures PlaySwara(e, swarasthanas, swara, octave, now) == Emitted(e, [])
    ensures StartTanpura(e) == Emitted(e, [])
  {
  }

  /**
   * The cooldown boundary: a note whose swara was last accepted at `t != 0`
   * is suppressed strictly inside (t, t + 300) and accepted from t + 300 on.
   */
  lemma CooldownBoundary(e: Engine, swarasthanas: set<string>, swara: string, octave: int, t: int, now: int)
    requires Valid(e) && e.audioStarted && swara in swarasthanas
    requires swara in e.cooldowns && e.cooldowns[swara] == t && t != 0
    ensures now < t + CooldownMs ==> PlaySwara(e, swarasthanas, swara, octave, now).events == []
    ensures now >= t + CooldownMs ==> PlaySwara(e, swarasthanas, swara, octave, now).events == [AttackRelease(swara, octave)]
  {
  }

  /** A recorded time of 0 never suppresses a note. */
  lemma ZeroStampIsNoCooldown(e: Engine, swarasthanas: set<string>, swara: string, octave: int, now: int)
    requires Valid(e) && e.audioStarted && swara in swarasthanas
    requires swara in e.cooldowns && e.cooldowns[swara] == 0
    ensures PlaySwara(e, swarasthanas, swara, octave, now).events == [AttackRelease(swara, octave)]
  {
  }

  /** Cooldown is per swara: playing `a` never changes whether a different swara `b` is accepted. */
  lemma CooldownPerSwara(e: Engine, swarasthanas: set<string>, a: string, b: string, octave: int, t: int, now: int)
    requires Valid(e) && a != b
    ensures Accepts(PlaySwara(e, swarasthanas, a, octave, t).engine, swarasthanas, b, now)
        == Accepts(e, swarasthanas, b, now)
  {
  }

  /** Starting the drone twice is starting it once: no doubled voices. */
  lemma StartTanpuraIdempotent(e: Engine)
    requires Valid(e)
    ensures StartTanpura(StartTanpura(e).engine) == Emitted(StartTanpura(e).engine, [])
  {
  }

  /** Stopping twice is stopping once. */
  lemma StopTanpuraIdempotent(e: Engine)
    requires Valid(e)
    ensures StopTanpura(StopTanpura(e).engine) == Emitted(StopTanpura(e).engine, [])
  {
  }

  /** With audio started, stop undoes start and start undoes stop. */
  lemma StartStopRoundTrip(e: Engine)
    requires Valid(e) && e.audioStarted
    ensures !e.tanpuraPlaying ==> StopTanpura(StartTanpura(e).engine).engine == e
    ensures e.tanpuraPlaying ==> StartTanpura(StopTanpura(e).engine).engine == e
  {
  }

  /** A volume set before initialisation is the volume the tanpura synth is created with. */
  lemma VolumeRetainedForInit(e: Engine, volume: int)
    requires Valid(e) && !e.audioStarted
    ensures UpdateTanpuraVolume(e, volume).events == []
    ensures Initialize(UpdateTanpuraVolume(e, volume).engine, true).tanpuraSynth == Some(volume)
  {
  }

  // ---------------------------------------------------------------------------
  // Rate limiting over a run of calls

  /** One `playSwara` call: the swara, the octave and the wall-clock time. */
  datatype Call = Call(swara: string, octave: int, now: int)

  /** An engine after a run of calls, with the calls that sounded, in order. */
  datatype Run = Run(engine: Engine, accepted: seq<Call>)

  /** Feed `calls` to `playSwara` one after another. */
  function PlayAll(e: Engine, swarasthanas: set<string>, calls: seq<Call>): (r: Run)
    requires Valid(e)
    ensures Valid(r.engine)
    ensures |r.accepted| <= |calls|
    ensures forall c :: c in r.accepted ==> c in calls
    decreases |calls|
  {
    if calls == [] then Run(e, [])
    else
      var c := calls[|calls| - 1];
      var before := PlayAll(e, swarasthanas, calls[..|calls| - 1]);
      var played := PlaySwara(before.engine, swarasthanas, c.swara, c.octave, c.now);
      Run(played.engine, if played.events == [] then before.accepted else before.accepted + [c])
  }

  /** Two sounded calls of the same swara are at least the cooldown apart, in call order. */
  predicate Spaced(accepted: seq<Call>) {
    forall i, j :: 0 <= i < j < |accepted| && accepted[i].swara == accepted[j].swara ==>
      accepted[j].now - accepted[i].now >= CooldownMs
  }

  /**
   * Rate limiting holds for every run of positive timestamps (wall-clock
   * times), from any engine: two sounded notes of one swara are always at
   * least 300 ms apart, whatever the order of the timestamps.
   */
  lemma {:induction false} PlayAllSpaced(e: Engine, swarasthanas: set<string>, calls: seq<Call>)
    requires Valid(e)
    requires forall i :: 0 <= i < |calls| ==> calls[i].now > 0
    ensures Spaced(PlayAll(e, swarasthanas, calls).accepted)
    ensures forall c :: c in PlayAll(e, swarasthanas, calls).accepted ==>
      c.swara in PlayAll(e, swarasthanas, calls).engine.cooldowns
      && c.now <= PlayAll(e, swarasthanas, calls).engine.cooldowns[c.swara]
    decreases |calls|
  {
    if calls != [] {
      var prefix := calls[..|calls| - 1];
      var c := calls[|calls| - 1];
      PlayAllSpaced(e, swarasthanas, prefix);
      var before := PlayAll(e, swarasthanas, prefix);
      var played := PlaySwara(before.engine, swarasthanas, c.swara, c.octave, c.now);
      var after := PlayAll(e, swarasthanas, calls);
      if played.events != [] {
        assert after.accepted == before.accepted + [c];
        forall i | 0 <= i < |before.accepted| && before.accepted[i].swara == c.swara
          ensures c.now - before.accepted[i].now >= CooldownMs
        {
          var p := before.accepted[i];
          assert p in before.accepted;
          assert p in prefix;
          assert Accepts(before.engine, swarasthanas, c.swara, c.now);
          assert p.now <= before.engine.cooldowns[c.swara];
        }
      }
    }
  }

  /** Without the positivity of timestamps the limit fails: a stamp of 0 lets the same swara sound twice 100 ms apart. */
  lemma ZeroTimestampBreaksSpacing(swarasthanas: set<string>)
    requires "Sa" in swarasthanas
    ensures var e := Initialize(Initial(), true);
            PlayAll(e, swarasthanas, [Call("Sa", 4, 0), Call("Sa", 4, 100)]).accepted
              == [Call("Sa", 4, 0), Call("Sa", 4, 100)]
  {
    var e := Initialize(Initial(), true);
    var calls := [Call("Sa", 4, 0), Call("Sa", 4, 100)];
    assert calls[..1] == [Call("Sa", 4, 0)];
    assert calls[..1][..0] == [];
  }
}

=== FILE: hand_mapping.dfy ===
/**
 * Assignment of the four non-thumb fingers of each hand (index, middle,
 * ring, pinky) to swaras, under three named layouts. The configuration is
 * only ever replaced as a whole.
 */
module HandMapping {

  datatype Direction = LeftToRight | RightToLeft | Cyclic

  datatype Hand = Left | Right

  datatype Config = Config(direction: Direction, leftHandSwaras: seq<string>, rightHandSwaras: seq<string>)

  /** The marker of a finger that plays nothing. */
  const Unassigned: string := ""

  /** The seven base swaras in ascending order. */
  const DefaultSwaras: seq<string> := ["Sa", "Ri", "Ga", "Ma", "Pa", "Da", "Ni"]

  /** Fingers tracked per hand. */
  const FingerCount: nat := 4

  /** The fixed left-hand layout of each direction. */
  function LeftLayout(d: Direction): seq<string> {
    match d
    case LeftToRight => ["Sa", "Ri", "Ga", "Ma"]
    case RightToLeft => ["", "Ni", "Da", "Pa"]
    case Cyclic => ["Sa", "Ri", "Ga", ""]
  }

  /** The fixed right-hand layout of each direction. */
  function RightLayout(d: Direction): seq<string> {
    match d
    case LeftToRight => ["Pa", "Da", "Ni", ""]
    case RightToLeft => ["Ma", "Ga", "Ri", "Sa"]
    case Cyclic => ["Ma", "Pa", "Da", "Ni"]
  }

  /** The swaras a configuration assigns to one hand. */
  function HandSwaras(c: Config, hand: Hand): seq<string> {
    match hand
    case Left => c.leftHandSwaras
    case Right => c.rightHandSwaras
  }

  /** Every slot of a configuration, left hand first. */
  function Slots(c: Config): seq<string> {
    c.leftHandSwaras + c.rightHandSwaras
  }

  /** No two entries of `s` are equal. */
  predicate Distinct(s: seq<string>) {
    forall i, j :: 0 <= i < j < |s| ==> s[i] != s[j]
  }

  /**
   * A layout: four fingers per hand, and the eight slots are the seven base
   * swaras and one unassigned slot, each exactly once.
   */
  predicate IsLayout(c: Config) {
    && |c.leftHandSwaras| == FingerCount
    && |c.rightHandSwaras| == FingerCount
    && Distinct(Slots(c))
    && forall s :: s in DefaultSwaras + [Unassigned] ==> s in Slots(c)
  }

  /** The configuration a session starts with. */
  function InitialConfig(): (c: Config)
    ensures IsLayout(c)
  {
    Config(LeftToRight, ["Sa", "Ri", "Ga", "Ma"], ["Pa", "Da", "Ni", ""])
  }

  /** Replace the whole configuration with the fixed layout of `d`. */
  function UpdateDirection(c: Config, d: Direction): (c': Config)
    ensures c'.direction == d
    ensures IsLayout(c')
  {
    Config(d, LeftLayout(d), RightLayout(d))
  }

  /**
   * The swara of finger `fingerIndex` of `hand`; the unassigned marker for an
   * index outside the hand's slots (negative ones included) or an empty slot.
   * Never fails and never changes the configuration.
   */
  function SwaraForFinger(c: Config, hand: Hand, fingerIndex: int): (r: string)
    ensures r != Unassigned ==> 0 <= fingerIndex < |HandSwaras(c, hand)| && r in HandSwaras(c, hand)
    ensures !(0 <= fingerIndex < |HandSwaras(c, hand)|) ==> r == Unassigned
  {
    var swaras := HandSwaras(c, hand);
    if 0 <= fingerIndex < |swaras| then swaras[fingerIndex] else Unassigned
  }

  /** The session's initial configuration is the left-to-right layout. */
  lemma InitialIsLeftToRight(c: Config)
    ensures UpdateDirection(c, LeftToRight) == InitialConfig()
    ensures InitialConfig().direction == LeftToRight
  {
  }

  /** The new configuration depends on the direction alone, not on the configuration it replaces. */
  lemma UpdateForgetsPrevious(c1: Config, c2: Config, d: Direction)
    ensures UpdateDirection(c1, d) == UpdateDirection(c2, d)
  {
  }

  /** Selecting the same direction twice is the same as selecting it once. */
  lemma UpdateIdempotent(c: Config, d: Direction)
    ensures UpdateDirection(UpdateDirection(c, d), d) == UpdateDirection(c, d)
  {
  }

  /**
   * After a direction change every lookup reads the new layout: in-range
   * fingers give the layout's entry and every other index gives the
   * unassigned marker.
   */
  lemma LookupAfterUpdate(c: Config, d: Direction, hand: Hand, fingerIndex: int)
    ensures 0 <= fingerIndex < FingerCount ==>
      SwaraForFinger(UpdateDirection(c, d), hand, fingerIndex)
        == (if hand == Left then LeftLayout(d) else RightLayout(d))[fingerIndex]
    ensures !(0 <= fingerIndex < FingerCount) ==>
      SwaraForFinger(UpdateDirection(c, d), hand, fingerIndex) == Unassigned
  {
  }

  /** The eight lookups a player can make: left index .. pinky, then right index .. pinky. */
  function FingerLookups(c: Config): seq<string> {
    [ SwaraForFinger(c, Left, 0), SwaraForFinger(c, Left, 1), SwaraForFinger(c, Left, 2), SwaraForFinger(c, Left, 3),
      SwaraForFinger(c, Right, 0), SwaraForFinger(c, Right, 1), SwaraForFinger(c, Right, 2), SwaraForFinger(c, Right, 3) ]
  }

  /**
   * In every layout, the eight finger lookups reach each base swara and the
   * unassigned marker, and no two fingers give the same result: each swara
   * is played by exactly one finger.
   */
  lemma EachSwaraOnce(c: Config, d: Direction)
    ensures Distinct(FingerLookups(UpdateDirection(c, d)))
    ensures forall s :: s in DefaultSwaras + [Unassigned] ==> s in FingerLookups(UpdateDirection(c, d))
  {
    var c' := UpdateDirection(c, d);
    assert FingerLookups(c') == Slots(c');
  }

  /** Switching to the cyclic layout moves Ma to the right index finger and frees the left pinky at once. */
  lemma CyclicSwitchExample(c: Config)
    ensures SwaraForFinger(UpdateDirection(c, Cyclic), Left, 3) == Unassigned
    ensures SwaraForFinger(UpdateDirection(c, Cyclic), Right, 0) == "Ma"
  {
  }
}

=== FILE: music_data.dfy ===
/**
 * The static music catalog the core reads (raga and tala tables, the swara
 * ratio table, the base and variant swara lists and the raga-aware resolver).
 * Its contents are not part of this model: every part of it is a parameter.
 */
module MusicData {

  /** Everything the core reads from the catalog. */
  datatype Catalog = Catalog(
    // keys of the swara ratio table (`swarasthanas`)
    swarasthanas: set<string>,
    // the seven base names shown by the swara row (`allBaseSwaras`)
    allBaseSwaras: seq<string>,
    // every spelling of every swara, e.g. "Ga2", "Ga3" (`allSwarasWithVariants`)
    allSwarasWithVariants: seq<string>,
    // raga key -> the swaras the raga uses
    ragas: map<string, seq<string>>,
    // tala key -> the number of beats in one cycle
    talas: map<string, nat>,
    // `getRagaSpecificSwara(swara, ragaSwaras)`: left uninterpreted
    ragaSpecificSwara: (string, seq<string>) -> string)

  /** The raga and tala selected when the page first renders. */
  const DefaultRaga: string := "mayamalavagowla"
  const DefaultTala: string := "adi"

  /** What the core relies on: the default selections exist and every tala has at least one beat. */
  predicate Valid(c: Catalog) {
    && DefaultRaga in c.ragas
    && DefaultTala in c.talas
    && forall k :: k in c.talas ==> c.talas[k] >= 1
  }
}

=== FILE: optional.dfy ===
/** A value that may be absent: a JavaScript `undefined`, or a timer ref that holds no handle. */
module Optional {

  datatype Option<+T> = None | Some(value: T)

  /** The set of values an option holds: empty or a singleton. */
  function Elements<T>(o: Option<T>): (s: set<T>)
    ensures o.None? <==> s == {}
    ensures o.Some? ==> o.value in s && |s| == 1
  {
    match o
    case None => {}
    case Some(v) => {v}
  }
}

=== FILE: performance.dfy ===
/**
 * The performance page's controller: the selections, the displayed swara and
 * its clear timeout, the tala beat counter and its interval, and the handlers
 * that drive the audio engine. Timers are explicit: each live timer has a
 * handle; an interval fires on a `TalaTick` input, and a timeout fires once a
 * `Clock` input reaches its deadline.
 */
module Performance {
  import opened Optional
  import MusicData
  import AudioEngine

  /** The displayed swara is cleared this many ms after the last accepted gesture. */
  const ClearDelayMs: int := 800

  /** What the display shows when no swara is being played. */
  const Placeholder: string := "--"

  const InitialOctave: int := 4

  /**
   * The page state. `talaIntervals` maps each live interval to the beat
   * count it was created with; `clearTimeouts` maps each pending display
   * clear to its deadline (ms). The refs hold the handle most recently
   * created; `nextHandle` is the next handle the timer API hands out.
   */
  datatype State = State(
    showWelcome: bool,
    experienceActive: bool,
    raga: string,
    tala: string,
    octave: int,
    currentSwara: string,
    talaCounter: nat,
    talaIntervals: map<nat, nat>,
    talaIntervalRef: Option<nat>,
    clearTimeouts: map<nat, int>,
    clearTimeoutRef: Option<nat>,
    nextHandle: nat,
    engine: AudioEngine.Engine)

  /** What can happen to the page: user actions, a gesture, and timer or clock events. */
  datatype Input =
    | BeginExperience(audioOk: bool)
    | HandGesture(swara: string, now: int)
    | TanpuraToggle
    | TanpuraVolumeChange(volume: int)
    | RagaChange(ragaKey: string)
    | TalaChange(talaKey: string)
    | OctaveChange(newOctave: int)
    | TalaTick(handle: nat)
    | Clock(now: int)

  /** A state after an input, with the calls made into the synthesiser. */
  datatype Outcome = Outcome(state: State, events: seq<AudioEngine.Event>)

  /** Selections offer only catalog keys. */
  predicate Allowed(c: MusicData.Catalog, input: Input) {
    && (input.RagaChange? ==> input.ragaKey in c.ragas)
    && (input.TalaChange? ==> input.talaKey in c.talas)
  }

  /**
   * The page's invariant: the selections exist, timers are live only under
   * their ref, refs hold handles already handed out, and an interval is live
   * exactly while the experience is active, counting the current tala's beats.
   */
  predicate Valid(s: State, c: MusicData.Catalog) {
    && MusicData.Valid(c)
    && s.raga in c.ragas
    && s.tala in c.talas
    && AudioEngine.Valid(s.engine)
    && s.nextHandle > 0
    && (forall h :: h in s.talaIntervals ==> s.talaIntervalRef == Some(h))
    && (forall h :: h in s.clearTimeouts ==> s.clearTimeoutRef == Some(h))
    && (s.talaIntervalRef.Some? ==> 0 < s.talaIntervalRef.value < s.nextHandle)
    && (s.clearTimeoutRef.Some? ==> 0 < s.clearTimeoutRef.value < s.nextHandle)
    && (s.experienceActive <==> s.talaIntervalRef.Some? && s.talaIntervalRef.value in s.talaIntervals)
    && (forall h :: h in s.talaIntervals ==> s.talaIntervals[h] == c.talas[s.tala])
  }

  /** The page when it first renders. */
  function Initial(c: MusicData.Catalog): (s: State)
    requires MusicData.Valid(c)
    ensures Valid(s, c)
    ensures !s.experienceActive && s.talaIntervals == map[] && s.clearTimeouts == map[]
    ensures s.engine == AudioEngine.Initial()
  {
    State(true, false, MusicData.DefaultRaga, MusicData.DefaultTala, InitialOctave, Placeholder, 0,
          map[], None, map[], None, 1, AudioEngine.Initial())
  }

  /**
   * `startTalaCounter`: clear the interval under the ref, if any, and create
   * a new one counting modulo `beats`. The counter itself is not reset.
   */
  function StartTalaCounter(s: State, beats: nat): (s': State)
    requires forall h :: h in s.talaIntervals ==> s.talaIntervalRef == Some(h)
    ensures s'.talaIntervals == map[s.nextHandle := beats]
    ensures s'.talaIntervalRef == Some(s.nextHandle) && s'.nextHandle > s.nextHandle
    ensures s'.(talaIntervals := s.talaIntervals, talaIntervalRef := s.talaIntervalRef, nextHandle := s.nextHandle) == s
  {
    var live := s.talaIntervals - Elements(s.talaIntervalRef);
    assert live == map[];
    s.(talaIntervals := live[s.nextHandle := beats], talaIntervalRef := Some(s.nextHandle),
       nextHandle := s.nextHandle + 1)
  }

  /**
   * `handleBeginExperience`: start audio (a failure is swallowed, so the
   * page always goes on), hide the welcome screen, activate the experience
   * and start the tala counter. Activation re-runs the tala effect, which
   * starts the counter once more.
   */
  function Begin(s: State, c: MusicData.Catalog, audioOk: bool): (s': State)
    requires Valid(s, c)
    ensures Valid(s', c)
    ensures s'.experienceActive && !s'.showWelcome
    ensures s'.talaCounter == s.talaCounter && s'.tala == s.tala && s'.raga == s.raga
    ensures s'.engine == AudioEngine.Initialize(s.engine, audioOk)
    ensures s'.(showWelcome := s.showWelcome, experienceActive := s.experienceActive, engine := s.engine,
                talaIntervals := s.talaIntervals, talaIntervalRef := s.talaIntervalRef, nextHandle := s.nextHandle) == s
  {
    var beats := c.talas[s.tala];
    var s1 := s.(engine := AudioEngine.Initialize(s.engine, audioOk), showWelcome := false,
                 experienceActive := true);
    var s2 := StartTalaCounter(s1, beats);
    if s.experienceActive then s2 else StartTalaCounter(s2, beats)
  }

  /**
   * `handleHandGesture`: resolve the swara against the current raga; if the
   * raga uses the result, play it, display it and replace any pending clear
   * with one clear `ClearDelayMs` after `now`. Otherwise nothing happens.
   */
  function Gesture(s: State, c: MusicData.Catalog, swara: string, now: int): (r: Outcome)
    requires Valid(s, c)
    ensures Valid(r.state, c)
    ensures c.ragaSpecificSwara(swara, c.ragas[s.raga]) !in c.ragas[s.raga] ==> r == Outcome(s, [])
    ensures c.ragaSpecificSwara(swara, c.ragas[s.raga]) in c.ragas[s.raga] ==>
      && r.state.currentSwara == c.ragaSpecificSwara(swara, c.ragas[s.raga])
      && r.state.clearTimeouts.Values == {now + ClearDelayMs}
      && r.state.engine == AudioEngine.PlaySwara(s.engine, c.swarasthanas, r.state.currentSwara, s.octave, now).engine
      && r.events == AudioEngine.PlaySwara(s.engine, c.swarasthanas, r.state.currentSwara, s.octave, now).events
      && r.state.engine.(cooldowns := s.engine.cooldowns) == s.engine
      && r.state.(engine := s.engine, currentSwara := s.currentSwara, clearTimeouts := s.clearTimeouts,
                  clearTimeoutRef := s.clearTimeoutRef, nextHandle := s.nextHandle) == s
  {
    var ragaSwaras := c.ragas[s.raga];
    var resolved := c.ragaSpecificSwara(swara, ragaSwaras);
    if resolved !in ragaSwaras then Outcome(s, [])
    else
      var played := AudioEngine.PlaySwara(s.engine, c.swarasthanas, resolved, s.octave, now);
      var pending := s.clearTimeouts - Elements(s.clearTimeoutRef);
      Outcome(s.(engine := played.engine, currentSwara := resolved,
                 clearTimeouts := pending[s.nextHandle := now + ClearDelayMs],
                 clearTimeoutRef := Some(s.nextHandle), nextHandle := s.nextHandle + 1),
              played.events)
  }

  /** `handleTanpuraToggle`: stop the drone when it plays, start it otherwise. */
  function Toggle(s: State, c: MusicData.Catalog): (r: Outcome)
    requires Valid(s, c)
    ensures Valid(r.state, c)
    ensures r.state.engine.tanpuraPlaying == (!s.engine.tanpuraPlaying && s.engine.audioStarted)
    ensures r.state.(engine := s.engine) == s
  {
    var played := if s.engine.tanpuraPlaying then AudioEngine.StopTanpura(s.engine)
                  else AudioEngine.StartTanpura(s.engine);
    Outcome(s.(engine := played.engine), played.events)
  }

  /**
   * Select a tala. Selecting the current one changes nothing; selecting
   * another one while the experience is active restarts the interval with
   * the new beat count, keeping the counter.
   */
  function ChangeTala(s: State, c: MusicData.Catalog, key: string): (s': State)
    requires Valid(s, c) && key in c.talas
    ensures Valid(s', c)
    ensures s'.tala == key && s'.talaCounter == s.talaCounter && s'.experienceActive == s.experienceActive
    ensures s'.(tala := s.tala, talaIntervals := s.talaIntervals, talaIntervalRef := s.talaIntervalRef,
                nextHandle := s.nextHandle) == s
  {
    if key == s.tala then s
    else if s.experienceActive then StartTalaCounter(s.(tala := key), c.talas[key])
    else s.(tala := key)
  }

  /** Interval `handle` fires: advance the counter modulo its beat count; a cleared interval never fires. */
  function Tick(s: State, c: MusicData.Catalog, handle: nat): (s': State)
    requires Valid(s, c)
    ensures Valid(s', c)
    ensures handle in s.talaIntervals ==> s'.talaCounter < c.talas[s.tala]
    ensures handle !in s.talaIntervals ==> s' == s
    ensures s'.(talaCounter := s.talaCounter) == s
  {
    if handle in s.talaIntervals then s.(talaCounter := (s.talaCounter + 1) % s.talaIntervals[handle])
    else s
  }

  /** Time reaches `now`: every pending clear whose deadline has passed fires and shows the placeholder. */
  function AdvanceClock(s: State, c: MusicData.Catalog, now: int): (s': State)
    requires Valid(s, c)
    ensures Valid(s', c)
    ensures forall h :: h in s'.clearTimeouts ==> h in s.clearTimeouts && s'.clearTimeouts[h] > now
    ensures s'.currentSwara == s.currentSwara || s'.currentSwara == Placeholder
    ensures (exists h :: h in s.clearTimeouts && s.clearTimeouts[h] <= now) ==> s'.currentSwara == Placeholder
    ensures (forall h :: h in s.clearTimeouts ==> s.clearTimeouts[h] > now) ==> s' == s
    ensures forall h :: h in s.clearTimeouts && s.clearTimeouts[h] > now ==>
      h in s'.clearTimeouts && s'.clearTimeouts[h] == s.clearTimeouts[h]
    ensures s'.(currentSwara := s.currentSwara, clearTimeouts := s.clearTimeouts) == s
  {
    var due := set h | h in s.clearTimeouts && s.clearTimeouts[h] <= now;
    assert forall h :: h in s.clearTimeouts && s.clearTimeouts[h] <= now ==> h in due;
    if due == {} then s
    else s.(currentSwara := Placeholder, clearTimeouts := s.clearTimeouts - due)
  }

  /**
   * The tanpura volume handler as the page means to wire it: the engine's
   * `updateTanpuraVolume`. The page passes it under a property name the
   * control panel never reads, so `Step` does not reach it.
   */
  function WiredVolumeChange(s: State, c: MusicData.Catalog, volume: int): (r: Outcome)
    requires Valid(s, c)
    ensures Valid(r.state, c)
    ensures r.state.(engine := s.engine) == s
    ensures r.state.engine == AudioEngine.UpdateTanpuraVolume(s.engine, volume).engine
    ensures r.events == AudioEngine.UpdateTanpuraVolume(s.engine, volume).events
  {
    var updated := AudioEngine.UpdateTanpuraVolume(s.engine, volume);
    Outcome(s.(engine := updated.engine), updated.events)
  }

  /**
   * The page's response to one input. The volume slider calls a callback
   * the page never supplies, so the call fails before any handler runs and
   * a volume input changes nothing.
   */
  function Step(s: State, c: MusicData.Catalog, input: Input): (r: Outcome)
    requires Valid(s, c) && Allowed(c, input)
    ensures Valid(r.state, c)
    ensures input.TanpuraVolumeChange? ==> r == Outcome(s, [])
  {
    match input
    case BeginExperience(ok) => Outcome(Begin(s, c, ok), [])
    case HandGesture(swara, now) => Gesture(s, c, swara, now)
    case TanpuraToggle => Toggle(s, c)
    case TanpuraVolumeChange(_) => Outcome(s, [])
    case RagaChange(key) => Outcome(s.(raga := key), [])
    case TalaChange(key) => Outcome(ChangeTala(s, c, key), [])
    case OctaveChange(o) => Outcome(s.(octave := o), [])
    case TalaTick(h) => Outcome(Tick(s, c, h), [])
    case Clock(now) => Outcome(AdvanceClock(s, c, now), [])
  }

  /** Feed `inputs` to the page one after another, collecting every synthesiser call. */
  function Run(s: State, c: MusicData.Catalog, inputs: seq<Input>): (r: Outcome)
    requires Valid(s, c)
    requires forall i :: 0 <= i < |inputs| ==> Allowed(c, inputs[i])
    ensures Valid(r.state, c)
    decreases |inputs|
  {
    if inputs == [] then Outcome(s, [])
    else
      var before := Run(s, c, inputs[..|inputs| - 1]);
      var last := Step(before.state, c, inputs[|inputs| - 1]);
      Outcome(last.state, before.events + last.events)
  }
}

=== FILE: performance_properties.dfy ===
/** Properties of the performance page's controller. */
module PerformanceProperties {
  import opened Optional
  import MusicData
  import AudioEngine
  import opened Performance

  // ---------------------------------------------------------------------------
  // Initial state and timers

  /** The page starts at octave 4, showing the placeholder, counter 0, on the default raga and tala, not yet active. */
  lemma InitialState(c: MusicData.Catalog)
    requires MusicData.Valid(c)
    ensures var s := Initial(c);
      && s.octave == 4 && s.currentSwara == "--" && s.talaCounter == 0
      && s.raga == "mayamalavagowla" && s.tala == "adi"
      && s.showWelcome && !s.experienceActive && !s.engine.audioStarted
  {
  }

  /** In every reachable state at most one tala interval and at most one display clear are live. */
  lemma AtMostOneTimer(s: State, c: MusicData.Catalog)
    requires Valid(s, c)
    ensures |s.talaIntervals| <= 1
    ensures |s.clearTimeouts| <= 1
  {
    SingleTimer(s.talaIntervals, s.talaIntervalRef);
    SingleTimer(s.clearTimeouts, s.clearTimeoutRef);
  }

  /** A timer table whose every handle is the one under the ref holds at most one timer. */
  lemma SingleTimer<V>(timers: map<nat, V>, ref: Option<nat>)
    requires forall h :: h in timers ==> ref == Some(h)
    ensures |timers| <= 1
  {
    if ref.Some? && ref.value in timers {
      assert timers.Keys == {ref.value};
    } else {
      assert timers.Keys == {};
    }
    assert |timers| == |timers.Keys|;
  }

  /**
   * Beginning the experience activates it whether or not audio started: the
   * welcome screen is gone, exactly one interval counts the current tala's
   * beats, and the counter keeps its value.
   */
  lemma BeginAlwaysActivates(s: State, c: MusicData.Catalog, audioOk: bool)
    requires Valid(s, c)
    ensures var s' := Begin(s, c, audioOk);
      && s'.experienceActive && !s'.showWelcome
      && |s'.talaIntervals| == 1
      && (forall h :: h in s'.talaIntervals ==> s'.talaIntervals[h] == c.talas[s.tala])
      && s'.talaCounter == s.talaCounter
      && s'.engine.audioStarted == (s.engine.audioStarted || audioOk)
  {
  }

  // ---------------------------------------------------------------------------
  // The tala counter

  /** A positive multiple of `b` is at least `b`. */
  lemma {:induction false} MulAtLeast(k: nat, b: nat)
    requires k >= 1
    ensures k * b >= b
    decreases k
  {
    if k > 1 {
      MulAtLeast(k - 1, b);
      assert k * b == (k - 1) * b + b;
    }
  }

  /** Quotient and remainder are the unique `q`, `r` with `a == q * b + r` and `0 <= r < b`. */
  lemma DivModUnique(a: int, b: int, q: int, r: int)
    requires b > 0 && 0 <= r < b && a == q * b + r
    ensures a / b == q && a % b == r
  {
    var q' := a / b;
    var r' := a % b;
    assert a == q' * b + r';
    assert (q - q') * b == r' - r;
    if q > q' {
      MulAtLeast(q - q', b);
    } else if q < q' {
      MulAtLeast(q' - q, b);
    }
  }

  /** Successor modulo `b` commutes with taking the remainder first. */
  lemma ModSucc(a: nat, b: nat)
    requires b > 0
    ensures (a % b + 1) % b == (a + 1) % b
  {
    var q := a / b;
    var r := a % b;
    if r + 1 < b {
      DivModUnique(a + 1, b, q, r + 1);
      DivModUnique(r + 1, b, 0, r + 1);
    } else {
      DivModUnique(a + 1, b, q + 1, 0);
      DivModUnique(r + 1, b, 1, 0);
    }
  }

  /** A tick of a live interval keeps the counter below the current tala's beat count. */
  lemma TickInRange(s: State, c: MusicData.Catalog, h: nat)
    requires Valid(s, c) && h in s.talaIntervals
    ensures Tick(s, c, h).talaCounter == (s.talaCounter + 1) % c.talas[s.tala]
    ensures Tick(s, c, h).talaCounter < c.talas[s.tala]
  {
  }

  /** `n` copies of one input. */
  function Repeat(x: Input, n: nat): (xs: seq<Input>)
    ensures |xs| == n
    ensures forall i :: 0 <= i < n ==> xs[i] == x
  {
    seq(n, _ => x)
  }

  /** One tick of a live interval, as a page input: only the counter moves and nothing sounds. */
  lemma TickStep(t: State, c: MusicData.Catalog, h: nat)
    requires Valid(t, c) && h in t.talaIntervals
    ensures Step(t, c, TalaTick(h)) == Outcome(t.(talaCounter := (t.talaCounter + 1) % c.talas[t.tala]), [])
  {
  }

  /** A run ends with the step for its last input. */
  lemma RunLast(s: State, c: MusicData.Catalog, inputs: seq<Input>)
    requires Valid(s, c) && inputs != []
    requires forall i :: 0 <= i < |inputs| ==> Allowed(c, inputs[i])
    ensures var before := Run(s, c, inputs[..|inputs| - 1]);
      var last := Step(before.state, c, inputs[|inputs| - 1]);
      Run(s, c, inputs) == Outcome(last.state, before.events + last.events)
  {
  }

  /**
   * After `n >= 1` ticks of the live interval the counter is
   * `(counter + n) % beats`; nothing else changes and nothing sounds.
   */
  lemma {:induction false} TicksAdvanceCounter(s: State, c: MusicData.Catalog, h: nat, n: nat)
    requires Valid(s, c) && h in s.talaIntervals
    ensures var r := Run(s, c, Repeat(TalaTick(h), n));
      && r.events == []
      && r.state == s.(talaCounter := if n == 0 then s.talaCounter else (s.talaCounter + n) % c.talas[s.tala])
  {
    if n > 0 {
      var beats := c.talas[s.tala];
      var inputs := Repeat(TalaTick(h), n);
      var prefix := inputs[..n - 1];
      assert prefix == Repeat(TalaTick(h), n - 1);
      TicksAdvanceCounter(s, c, h, n - 1);
      var before := Run(s, c, prefix);
      var k := if n == 1 then s.talaCounter else (s.talaCounter + n - 1) % beats;
      assert before.state == s.(talaCounter := k);
      assert (k + 1) % beats == (s.talaCounter + n) % beats by {
        if n > 1 {
          ModSucc(s.talaCounter + n - 1, beats);
        }
      }
      TickStep(before.state, c, h);
      RunLast(s, c, inputs);
    }
  }

  /** Counting from 0, the counter after `n` ticks is `n % beats`. */
  lemma TicksFromZero(s: State, c: MusicData.Catalog, h: nat, n: nat)
    requires Valid(s, c) && h in s.talaIntervals && s.talaCounter == 0
    ensures Run(s, c, Repeat(TalaTick(h), n)).state.talaCounter == n % c.talas[s.tala]
  {
    TicksAdvanceCounter(s, c, h, n);
  }

  /** The number of ticks among the first `n` after which the counter reads 0. */
  function Wraps(s: State, c: MusicData.Catalog, h: nat, n: nat): nat
    requires Valid(s, c)
  {
    if n == 0 then 0
    else Wraps(s, c, h, n - 1) + (if Run(s, c, Repeat(TalaTick(h), n)).state.talaCounter == 0 then 1 else 0)
  }

  /** Among 1..n, one more multiple of `b` lies at `n` exactly when `b` divides `n`. */
  lemma DivStep(n: nat, b: nat)
    requires n > 0 && b > 0
    ensures n / b == (n - 1) / b + (if n % b == 0 then 1 else 0)
  {
    var q := (n - 1) / b;
    var r := (n - 1) % b;
    if r + 1 < b {
      DivModUnique(n, b, q, r + 1);
    } else {
      DivModUnique(n, b, q + 1, 0);
    }
  }

  /** Counting from 0, the counter returns to 0 once per full cycle: `n / beats` times in `n` ticks. */
  lemma {:induction false} WrapsPerCycle(s: State, c: MusicData.Catalog, h: nat, n: nat)
    requires Valid(s, c) && h in s.talaIntervals && s.talaCounter == 0
    ensures Wraps(s, c, h, n) == n / c.talas[s.tala]
  {
    if n > 0 {
      var beats := c.talas[s.tala];
      WrapsPerCycle(s, c, h, n - 1);
      TicksFromZero(s, c, h, n);
      var counter := Run(s, c, Repeat(TalaTick(h), n)).state.talaCounter;
      assert counter == n % beats;
      assert Wraps(s, c, h, n) == (n - 1) / beats + (if counter == 0 then 1 else 0);
      DivStep(n, beats);
    }
  }

  /** An eight-beat tala returns to 0 exactly twice in sixteen ticks. */
  lemma EightBeatsWrapTwice(s: State, c: MusicData.Catalog, h: nat)
    requires Valid(s, c) && h in s.talaIntervals && s.talaCounter == 0 && c.talas[s.tala] == 8
    ensures Wraps(s, c, h, 16) == 2
  {
    WrapsPerCycle(s, c, h, 16);
  }

  /**
   * Changing the tala while active clears the old interval and starts one
   * for the new beat count, but keeps the counter, which may therefore be
   * at or above the new beat count until the next tick.
   */
  lemma TalaChangeRestartsInterval(s: State, c: MusicData.Catalog, key: string)
    requires Valid(s, c) && s.experienceActive && key in c.talas && key != s.tala
    ensures var s' := ChangeTala(s, c, key);
      && s'.talaIntervals == map[s.nextHandle := c.talas[key]]
      && (forall h :: h in s.talaIntervals ==> h !in s'.talaIntervals)
      && s'.talaCounter == s.talaCounter
      && Tick(s', c, s.nextHandle).talaCounter == (s.talaCounter + 1) % c.talas[key]
  {
  }

  /** Re-selecting the current tala changes nothing: the interval keeps running. */
  lemma SameTalaNoRestart(s: State, c: MusicData.Catalog)
    requires Valid(s, c)
    ensures ChangeTala(s, c, s.tala) == s
  {
  }

  // ---------------------------------------------------------------------------
  // Gestures and the displayed swara

  /** The swara a gesture resolves to under the current raga. */
  function Resolved(s: State, c: MusicData.Catalog, swara: string): string
    requires Valid(s, c)
  {
    c.ragaSpecificSwara(swara, c.ragas[s.raga])
  }

  /** A gesture whose resolved swara the raga does not use changes nothing and sounds nothing. */
  lemma GestureOutsideRagaIgnored(s: State, c: MusicData.Catalog, swara: string, now: int)
    requires Valid(s, c) && Resolved(s, c, swara) !in c.ragas[s.raga]
    ensures Gesture(s, c, swara, now) == Outcome(s, [])
  {
  }

  /**
   * An accepted gesture displays the resolved swara, sounds it at the current
   * octave unless the engine suppresses it, and leaves exactly one pending
   * clear, due 800 ms later, in place of any earlier one; the selections,
   * the counter and its interval are untouched.
   */
  lemma GestureAccepted(s: State, c: MusicData.Catalog, swara: string, now: int)
    requires Valid(s, c) && Resolved(s, c, swara) in c.ragas[s.raga]
    ensures var r := Gesture(s, c, swara, now);
      var resolved := Resolved(s, c, swara);
      && r.state.currentSwara == resolved
      && r.state.clearTimeouts == map[s.nextHandle := now + ClearDelayMs]
      && (forall h :: h in s.clearTimeouts ==> h !in r.state.clearTimeouts)
      && (r.events == [] || r.events == [AudioEngine.AttackRelease(resolved, s.octave)])
      && (r.events != [] <==> AudioEngine.Accepts(s.engine, c.swarasthanas, resolved, now))
      && r.state.raga == s.raga && r.state.tala == s.tala && r.state.octave == s.octave
      && r.state.talaCounter == s.talaCounter && r.state.talaIntervals == s.talaIntervals
  {
  }

  /** The display follows an accepted gesture even when no sound is made (audio not started). */
  lemma GestureDisplaysWithoutAudio(s: State, c: MusicData.Catalog, swara: string, now: int)
    requires Valid(s, c) && !s.engine.audioStarted && Resolved(s, c, swara) in c.ragas[s.raga]
    ensures Gesture(s, c, swara, now).events == []
    ensures Gesture(s, c, swara, now).state.currentSwara == Resolved(s, c, swara)
  {
  }

  /**
   * The display keeps an accepted swara until 800 ms have passed and shows
   * the placeholder from then on.
   */
  lemma DisplayClearsAfterDelay(s: State, c: MusicData.Catalog, swara: string, now: int, later: int)
    requires Valid(s, c) && Resolved(s, c, swara) in c.ragas[s.raga]
    ensures var shown := Gesture(s, c, swara, now).state;
      && (later < now + ClearDelayMs ==> AdvanceClock(shown, c, later) == shown)
      && (later >= now + ClearDelayMs ==>
            AdvanceClock(shown, c, later).currentSwara == Placeholder
            && AdvanceClock(shown, c, later).clearTimeouts == map[])
  {
    var shown := Gesture(s, c, swara, now).state;
    GestureAccepted(s, c, swara, now);
    var due := set h | h in shown.clearTimeouts && shown.clearTimeouts[h] <= later;
    if later >= now + ClearDelayMs {
      assert s.nextHandle in due;
      assert shown.clearTimeouts - due == map[];
    } else {
      assert due == {};
    }
  }

  /**
   * A second accepted gesture postpones the clear: at the first gesture's
   * deadline the second swara is still shown.
   */
  lemma LaterGesturePostponesClear(s: State, c: MusicData.Catalog, first: string, second: string, t1: int, t2: int)
    requires Valid(s, c) && t1 < t2
    requires Resolved(s, c, first) in c.ragas[s.raga]
    requires Resolved(s, c, second) in c.ragas[s.raga]
    ensures var s1 := Gesture(s, c, first, t1).state;
      var s2 := Gesture(s1, c, second, t2).state;
      AdvanceClock(s2, c, t1 + ClearDelayMs).currentSwara == Resolved(s, c, second)
  {
    var s1 := Gesture(s, c, first, t1).state;
    GestureAccepted(s, c, first, t1);
    assert Resolved(s1, c, second) == Resolved(s, c, second);
    DisplayClearsAfterDelay(s1, c, second, t2, t1 + ClearDelayMs);
  }

  /**
   * Repeating a gesture within the 300 ms cooldown updates the display and
   * the clear deadline, but the note sounds only once.
   */
  lemma RepeatWithinCooldownSilent(s: State, c: MusicData.Catalog, swara: string, t1: int, t2: int)
    requires Valid(s, c) && t1 != 0 && t1 <= t2 < t1 + AudioEngine.CooldownMs
    requires Resolved(s, c, swara) in c.ragas[s.raga]
    requires AudioEngine.Accepts(s.engine, c.swarasthanas, Resolved(s, c, swara), t1)
    ensures var first := Gesture(s, c, swara, t1);
      var second := Gesture(first.state, c, swara, t2);
      && first.events == [AudioEngine.AttackRelease(Resolved(s, c, swara), s.octave)]
      && second.events == []
      && second.state.currentSwara == Resolved(s, c, swara)
      && second.state.clearTimeouts == map[first.state.nextHandle := t2 + ClearDelayMs]
  {
    var first := Gesture(s, c, swara, t1);
    GestureAccepted(s, c, swara, t1);
    assert Resolved(first.state, c, swara) == Resolved(s, c, swara);
    GestureAccepted(first.state, c, swara, t2);
  }

  // ---------------------------------------------------------------------------
  // The tanpura toggle

  /** The toggle stops a playing drone and starts a silent one. */
  lemma ToggleFollowsPlaying(s: State, c: MusicData.Catalog)
    requires Valid(s, c)
    ensures s.engine.tanpuraPlaying ==>
      Toggle(s, c).events == [AudioEngine.ReleaseAll] && !Toggle(s, c).state.engine.tanpuraPlaying
    ensures !s.engine.tanpuraPlaying && s.engine.audioStarted ==>
      && Toggle(s, c).state.engine.tanpuraPlaying
      && Toggle(s, c).events == [AudioEngine.Attack("Sa", AudioEngine.TanpuraOctave, 0),
                                 AudioEngine.Attack("Pa", AudioEngine.TanpuraOctave, AudioEngine.TanpuraStaggerMs)]
    ensures !s.engine.audioStarted ==> Toggle(s, c) == Outcome(s, [])
  {
  }

  // ---------------------------------------------------------------------------
  // Selections and volume

  /** Selecting a raga only records it: nothing sounds and nothing else changes. */
  lemma RagaChangeOnlySelects(s: State, c: MusicData.Catalog, key: string)
    requires Valid(s, c) && key in c.ragas
    ensures Step(s, c, RagaChange(key)) == Outcome(s.(raga := key), [])
  {
  }

  /** Selecting an octave only records it, whatever the number. */
  lemma OctaveChangeOnlySets(s: State, c: MusicData.Catalog, octave: int)
    requires Valid(s, c)
    ensures Step(s, c, OctaveChange(octave)) == Outcome(s.(octave := octave), [])
  {
  }

  /**
   * Correctly wired, a volume change touches only the engine: the volume is
   * recorded and, once audio has started, applied to the live synth.
   */
  lemma VolumeChangeOnlyEngine(s: State, c: MusicData.Catalog, volume: int)
    requires Valid(s, c)
    ensures WiredVolumeChange(s, c, volume).state.(engine := s.engine) == s
    ensures WiredVolumeChange(s, c, volume).state.engine.tanpuraVolume == volume
    ensures WiredVolumeChange(s, c, volume).state.engine.(tanpuraVolume := s.engine.tanpuraVolume,
                                                          tanpuraSynth := s.engine.tanpuraSynth) == s.engine
    ensures WiredVolumeChange(s, c, volume).events
      == (if s.engine.audioStarted then [AudioEngine.SetVolume(volume)] else [])
  {
  }

  /**
   * As wired, the volume slider never reaches the engine: after a successful
   * begin, moving it to -40 leaves the drone at -20 and sends nothing, where
   * the wired handler would apply -40.
   */
  lemma VolumeSliderNeverApplied(c: MusicData.Catalog)
    requires MusicData.Valid(c)
    ensures var s := Begin(Initial(c), c, true);
      && Step(s, c, TanpuraVolumeChange(-40)).state.engine.tanpuraVolume == -20
      && Step(s, c, TanpuraVolumeChange(-40)).events == []
      && WiredVolumeChange(s, c, -40).state.engine.tanpuraVolume == -40
      && WiredVolumeChange(s, c, -40).events == [AudioEngine.SetVolume(-40)]
  {
  }

  /** Once audio has started, toggling twice restores the page. */
  lemma ToggleTwiceRestores(s: State, c: MusicData.Catalog)
    requires Valid(s, c) && s.engine.audioStarted
    ensures Toggle(Toggle(s, c).state, c).state == s
  {
  }

  // ---------------------------------------------------------------------------
  // Sessions: several inputs through the page's input loop

  /** A run of one input is that input's step. */
  lemma RunOne(s: State, c: MusicData.Catalog, x: Input)
    requires Valid(s, c) && Allowed(c, x)
    ensures Run(s, c, [x]) == Step(s, c, x)
  {
    RunLast(s, c, [x]);
    assert [x][..0] == [];
  }

  /**
   * Through the page's input loop, an accepted gesture followed by a clock
   * tick at `later` shows the swara while the clear is not yet due and the
   * placeholder from the deadline on.
   */
  lemma GestureThenClock(s: State, c: MusicData.Catalog, swara: string, now: int, later: int)
    requires Valid(s, c) && Resolved(s, c, swara) in c.ragas[s.raga]
    ensures Run(s, c, [HandGesture(swara, now), Clock(later)]).state.currentSwara
      == if later < now + ClearDelayMs then Resolved(s, c, swara) else Placeholder
  {
    var inputs := [HandGesture(swara, now), Clock(later)];
    var shown := Gesture(s, c, swara, now).state;
    RunOne(s, c, HandGesture(swara, now));
    GestureAccepted(s, c, swara, now);
    DisplayClearsAfterDelay(s, c, swara, now, later);
    assert inputs[..1] == [HandGesture(swara, now)];
    RunLast(s, c, inputs);
    assert Run(s, c, inputs).state == AdvanceClock(shown, c, later);
  }

  /**
   * While the experience is active, a tala selection leaves exactly one live
   * interval, the one under the ref, counting the selected tala's beats; the
   * engine and the welcome screen are untouched and nothing sounds.
   */
  lemma TalaChangeWhileActive(s: State, c: MusicData.Catalog, key: string)
    requires Valid(s, c) && s.experienceActive && key in c.talas
    ensures var r := Step(s, c, TalaChange(key));
      && r.events == []
      && r.state.experienceActive && r.state.tala == key
      && r.state.engine == s.engine && r.state.showWelcome == s.showWelcome
      && r.state.talaIntervalRef.Some?
      && r.state.talaIntervals == map[r.state.talaIntervalRef.value := c.talas[key]]
  {
    var s' := ChangeTala(s, c, key);
    var ref := s'.talaIntervalRef.value;
    assert ref in s'.talaIntervals;
    assert s'.talaIntervals == map[ref := c.talas[key]];
  }

  /** Begin, then toggle the drone: the drone sounds exactly when audio started. */
  lemma BeginThenToggle(c: MusicData.Catalog, audioOk: bool)
    requires MusicData.Valid(c)
    ensures var r := Run(Initial(c), c, [BeginExperience(audioOk), TanpuraToggle]);
      && r.state.experienceActive && !r.state.showWelcome
      && r.state.engine.tanpuraPlaying == audioOk
      && r.events == (if audioOk then [AudioEngine.Attack("Sa", AudioEngine.TanpuraOctave, 0),
                                       AudioEngine.Attack("Pa", AudioEngine.TanpuraOctave, AudioEngine.TanpuraStaggerMs)]
                      else [])
  {
    var s0 := Initial(c);
    var inputs := [BeginExperience(audioOk), TanpuraToggle];
    var s1 := Begin(s0, c, audioOk);
    BeginAlwaysActivates(s0, c, audioOk);
    RunOne(s0, c, BeginExperience(audioOk));
    ToggleFollowsPlaying(s1, c);
    assert inputs[..1] == [BeginExperience(audioOk)];
    RunLast(s0, c, inputs);
  }

  /**
   * A first session from the initial page: begin, toggle the drone, change
   * the tala. The page is active with one interval counting the new tala;
   * the drone sounds Sa and Pa exactly when audio started.
   */
  lemma FirstSession(c: MusicData.Catalog, audioOk: bool, key: string)
    requires MusicData.Valid(c) && key in c.talas
    ensures var r := Run(Initial(c), c, [BeginExperience(audioOk), TanpuraToggle, TalaChange(key)]);
      && r.state.experienceActive && !r.state.showWelcome && r.state.tala == key
      && r.state.talaIntervalRef.Some?
      && r.state.talaIntervals == map[r.state.talaIntervalRef.value := c.talas[key]]
      && r.state.engine.tanpuraPlaying == audioOk
      && r.events == (if audioOk then [AudioEngine.Attack("Sa", AudioEngine.TanpuraOctave, 0),
                                       AudioEngine.Attack("Pa", AudioEngine.TanpuraOctave, AudioEngine.TanpuraStaggerMs)]
                      else [])
  {
    var s0 := Initial(c);
    var inputs := [BeginExperience(audioOk), TanpuraToggle, TalaChange(key)];
    BeginThenToggle(c, audioOk);
    var t := Run(s0, c, inputs[..2]);
    assert inputs[..2] == [BeginExperience(audioOk), TanpuraToggle];
    TalaChangeWhileActive(t.state, c, key);
    RunLast(s0, c, inputs);
  }
}

=== FILE: swara_display.dfy ===
/**
 * The row of base swaras under the video: a base is shown as present when
 * the current raga uses one of its spellings, and as active when it is the
 * swara being displayed, digits ignored.
 */
module SwaraDisplay {
  import opened Optional

  /** A character matched by the regular expression class `\d` (ASCII digits). */
  predicate IsDigit(ch: char) {
    '0' <= ch <= '9'
  }

  predicate HasNoDigit(s: string) {
    forall i :: 0 <= i < |s| ==> !IsDigit(s[i])
  }

  predicate StartsWith(s: string, prefix: string) {
    |prefix| <= |s| && s[..|prefix|] == prefix
  }

  /**
   * `s` with every digit removed: the non-digit characters of `s`, in order,
   * and nothing else.
   */
  function StripDigits(s: string): (r: string)
    ensures HasNoDigit(r)
    ensures |r| <= |s|
    ensures HasNoDigit(s) ==> r == s
  {
    if s == [] then []
    else if IsDigit(s[0]) then StripDigits(s[1..])
    else [s[0]] + StripDigits(s[1..])
  }

  /** Stripping keeps every non-digit character as often as it occurs and drops every digit. */
  lemma {:induction false} StripDigitsCounts(s: string, ch: char)
    ensures !IsDigit(ch) ==> multiset(StripDigits(s))[ch] == multiset(s)[ch]
    ensures IsDigit(ch) ==> multiset(StripDigits(s))[ch] == 0
    decreases |s|
  {
    if s != [] {
      assert s == [s[0]] + s[1..];
      StripDigitsCounts(s[1..], ch);
    }
  }

  /** Stripping distributes over concatenation, so the characters kept stay in their order. */
  lemma {:induction false} StripDigitsAppend(a: string, b: string)
    ensures StripDigits(a + b) == StripDigits(a) + StripDigits(b)
    decreases |a|
  {
    if a == [] {
      assert a + b == b;
    } else {
      var ab := a + b;
      assert ab[0] == a[0];
      assert ab[1..] == a[1..] + b;
      StripDigitsAppend(a[1..], b);
      if IsDigit(a[0]) {
        assert StripDigits(ab) == StripDigits(a[1..] + b);
        assert StripDigits(a) == StripDigits(a[1..]);
      } else {
        assert StripDigits(ab) == [a[0]] + StripDigits(a[1..] + b);
        assert StripDigits(a) == [a[0]] + StripDigits(a[1..]);
      }
    }
  }

  /** Stripping twice is stripping once. */
  lemma StripDigitsIdempotent(s: string)
    ensures StripDigits(StripDigits(s)) == StripDigits(s)
  {
  }

  /** The variants of `base`: the entries of `variants` that start with it, in order. */
  function RelevantSwaras(variants: seq<string>, base: string): (r: seq<string>)
    ensures forall v :: v in r <==> v in variants && StartsWith(v, base)
    ensures |r| <= |variants|
  {
    if variants == [] then []
    else if StartsWith(variants[0], base) then [variants[0]] + RelevantSwaras(variants[1..], base)
    else RelevantSwaras(variants[1..], base)
  }

  /** Some entry of `candidates` is one of the raga's swaras. */
  function SomeIncluded(candidates: seq<string>, ragaSwaras: seq<string>): (b: bool)
    ensures b <==> exists v :: v in candidates && v in ragaSwaras
  {
    if candidates == [] then false
    else candidates[0] in ragaSwaras || SomeIncluded(candidates[1..], ragaSwaras)
  }

  /**
   * `isSwaraPresent`: some spelling in `allSwarasWithVariants` that starts
   * with `base` is used by the raga.
   */
  function IsSwaraPresent(allSwarasWithVariants: seq<string>, ragaSwaras: seq<string>, base: string): (b: bool)
    ensures b <==> exists v :: v in allSwarasWithVariants && StartsWith(v, base) && v in ragaSwaras
  {
    SomeIncluded(RelevantSwaras(allSwarasWithVariants, base), ragaSwaras)
  }

  /**
   * `isSwaraActive`: the displayed swara, digits removed, is `base`; with no
   * displayed swara nothing is active.
   */
  function IsSwaraActive(currentSwara: Option<string>, base: string): (b: bool)
    ensures currentSwara.None? ==> !b
    ensures b ==> HasNoDigit(base)
    ensures currentSwara.Some? && HasNoDigit(currentSwara.value) ==> (b <==> currentSwara.value == base)
  {
    currentSwara.Some? && StripDigits(currentSwara.value) == base
  }

  /** Presence is monotone: a raga using more swaras hides no base that a smaller one shows. */
  lemma PresentMonotone(variants: seq<string>, smaller: seq<string>, larger: seq<string>, base: string)
    requires forall x :: x in smaller ==> x in larger
    ensures IsSwaraPresent(variants, smaller, base) ==> IsSwaraPresent(variants, larger, base)
  {
  }

  /** A raga with no swaras shows every base as absent. */
  lemma EmptyRagaShowsNothing(variants: seq<string>, base: string)
    ensures !IsSwaraPresent(variants, [], base)
  {
  }

  /** Both a spelled variant and the bare name light up their base. */
  lemma GaVariantsActive()
    ensures IsSwaraActive(Some("Ga3"), "Ga")
    ensures IsSwaraActive(Some("Ga"), "Ga")
  {
    assert "Ga3" == "Ga" + "3";
    StripDigitsAppend("Ga", "3");
    assert StripDigits("3") == [];
  }

  /** A string of digits strips to nothing. */
  lemma {:induction false} StripAllDigits(digits: string)
    requires forall i :: 0 <= i < |digits| ==> IsDigit(digits[i])
    ensures StripDigits(digits) == []
    decreases |digits|
  {
    if digits != [] {
      StripAllDigits(digits[1..]);
    }
  }

  /**
   * Digits appended to the displayed swara never change which base is
   * active; in particular every octave spelling of a digit-free base, such
   * as "Ri1" or "Ga2", activates that base.
   */
  lemma SpelledVariantActive(display: string, digits: string, base: string)
    requires forall i :: 0 <= i < |digits| ==> IsDigit(digits[i])
    ensures IsSwaraActive(Some(display + digits), base) == IsSwaraActive(Some(display), base)
    ensures HasNoDigit(base) ==> IsSwaraActive(Some(base + digits), base)
  {
    StripDigitsAppend(display, digits);
    StripDigitsAppend(base, digits);
    StripAllDigits(digits);
    assert StripDigits(display) + [] == StripDigits(display);
    assert StripDigits(base) + [] == StripDigits(base);
  }

  /** What one tile of the row shows. */
  datatype Tile = Tile(swara: string, present: bool, active: bool)

  /** The row of tiles, one per base swara, in order. */
  function Row(allBaseSwaras: seq<string>, allSwarasWithVariants: seq<string>, ragaSwaras: seq<string>,
               currentSwara: Option<string>): (row: seq<Tile>)
    ensures |row| == |allBaseSwaras|
    ensures forall i :: 0 <= i < |row| ==>
      && row[i].swara == allBaseSwaras[i]
      && row[i].present == IsSwaraPresent(allSwarasWithVariants, ragaSwaras, allBaseSwaras[i])
      && row[i].active == IsSwaraActive(currentSwara, allBaseSwaras[i])
    ensures currentSwara.None? ==> forall i :: 0 <= i < |row| ==> !row[i].active
    ensures (forall a, b :: 0 <= a < b < |allBaseSwaras| ==> allBaseSwaras[a] != allBaseSwaras[b]) ==>
      forall i, j :: 0 <= i < j < |row| ==> !(row[i].active && row[j].active)
  {
    seq(|allBaseSwaras|, i requires 0 <= i < |allBaseSwaras| =>
      Tile(allBaseSwaras[i], IsSwaraPresent(allSwarasWithVariants, ragaSwaras, allBaseSwaras[i]),
           IsSwaraActive(currentSwara, allBaseSwaras[i])))
  }

  /** With distinct base names, at most one tile of the row is active. */
  lemma AtMostOneActive(allBaseSwaras: seq<string>, allSwarasWithVariants: seq<string>, ragaSwaras: seq<string>,
                        currentSwara: Option<string>, i: int, j: int)
    requires forall a, b :: 0 <= a < b < |allBaseSwaras| ==> allBaseSwaras[a] != allBaseSwaras[b]
    requires 0 <= i < |allBaseSwaras| && 0 <= j < |allBaseSwaras|
    requires Row(allBaseSwaras, allSwarasWithVariants, ragaSwaras, currentSwara)[i].active
    requires Row(allBaseSwaras, allSwarasWithVariants, ragaSwaras, currentSwara)[j].active
    ensures i == j
  {
  }

  /** The placeholder shown between notes lights up no base swara other than a base literally named "--". */
  lemma PlaceholderActiveForNone(base: string)
    ensures IsSwaraActive(Some("--"), base) <==> base == "--"
  {
    assert HasNoDigit("--");
  }
}
